=== FILE: README.md ===
# mindreshape — verified model of the chat, selection and task rules

The application is a mental-wellness web app (quizzes, an AI chat coach,
reflection logs, tasks). Almost all of it is UI and calls to a hosted
database and to a language-model API. This project models the small
deterministic rules scattered through it, as pure Dafny functions over
immutable datatypes, and proves their properties:

- **Chat endpoint** (`ChatRoute`): the 400 → 401 → 403 check order, traced as
  the sequence of external lookups made; the model input built from a
  10-entry sliding window of history filtered to user/assistant roles plus
  the new message; the personalisation context; reply reading and token sum;
  provider-error → status mapping.
- **Chat panel** (`ChatInterface`): the submit guard on trimmed input and the
  loading flag; the order of store writes, endpoint call and local appends;
  the first-turn title rule; the history sent; the displayed transcript.
- **Question card** (`QuestionCard`): single-choice replacement,
  multiple-choice toggling, `isSelected`.
- **Task cards** (`TaskCard`, `UserTaskCard`): the status update with its
  `completed_at` bookkeeping, the +10 points award, the offered transition,
  the new-assignment record and the label/icon lookups.
- **Practice-log card**, **conversation list**, **sign-up** (`PracticeLogCard`,
  `ConversationList`, `AuthContext`): mood emoji index, category and bias
  fallbacks, day bucketing of dates, context icons, and the default username.

Helper modules: `Wrappers` (Option for null/undefined), `Seqs` (`filter`,
`slice(-n)`, `slice(0, n)`), `Strings` (JavaScript `trim`, `split(sep)[0]`,
decimal rendering), `Types` (roles, question kinds and task statuses with
their stored names).

External calls are oracles. The database, the authentication service and
the language model are parameters of each handler: success flags, optional
rows, or a provider outcome. Each handler returns its new state and the list
of external effects it performed, in order, so ordering claims ("400 before
any lookup", "no title update after a failure") are stated on that list.
Clock readings (`Date.now`, `toISOString`, the elapsed milliseconds) and
locale-formatted dates are inputs.

Three behaviours of the code are easy to misread; the model follows the code:
- The endpoint first takes the last ten history entries (the "latest 10
  entries" of `src/app/api/chat/route.ts:92-93`) and only then drops entries
  whose role is not user or assistant. A caller that puts other roles in the
  history therefore gets fewer than ten prior turns through
  (`ChatRoute.WindowBeforeFilter`). The chat panel never sends such entries, so
  for its requests the model sees exactly the last ten displayed messages
  (`ChatInterface.ModelSeesDisplayedWindow`).
- A first turn whose reply fails leaves the user message in the transcript.
  A retry is then no longer a first turn, so the conversation is never titled
  from it (`ChatInterface.FailedFirstTurnKeepsTitle`).
- Un-completing a task deducts nothing. Completing it again pays again
  (`UserTaskCard.RecompletionPaysTwice`).

## Model

| member | source | states |
|---|---|---|
| Types.ParseRole | src/types/database.ts:83 | reads back exactly the three role names user/assistant/system; any other string is no role |
| Types.ParseKind | src/types/database.ts:24 | reads back exactly the question kinds single/multiple/text |
| Types.ParseStatus | src/components/tasks/user-task-card.tsx:27-32 | reads back exactly the four task statuses pending/in_progress/completed/skipped |
| Seqs.Filter | src/components/chat/chat-interface.tsx:136 | `filter`: every kept element passes, every passing element is kept, never longer than the input |
| Seqs.FilterConcat | src/components/chat/chat-interface.tsx:136 | filtering distributes over concatenation, so relative order is preserved |
| Seqs.TakeLast | src/app/api/chat/route.ts:93 | `slice(-n)` for n > 0: a suffix of length min(n, length) |
| Strings.Trim | src/components/chat/chat-interface.tsx:51-53 | `trim()`: result neither starts nor ends with ECMAScript white space; empty iff the input is all white space |
| Strings.TrimUnique | src/components/chat/chat-interface.tsx:51-53 | independent characterisation: white space + core + white space trims to the core |
| Strings.TrimIdempotent | src/components/chat/chat-interface.tsx:53 | trimming the trimmed message changes nothing |
| Strings.BeforeFirst | src/contexts/auth-context.tsx:54 | `split(sep)[0]`: a prefix free of sep, ending at the first sep or at the end |
| Strings.BeforeFirstUnique | src/components/tasks/task-card.tsx:60 | those three properties determine `split(sep)[0]` uniquely |
| Strings.IntToDecimal | src/components/chat/conversation-list.tsx:37 | `${n}`: a minus sign exactly for negative n, then the digits of the magnitude |
| Strings.DecimalRoundTrip | src/components/chat/conversation-list.tsx:37 | the rendered digits read back as the number |
| ChatRoute.ModelInput | src/app/api/chat/route.ts:93-107 | 1 to 11 messages, all user/assistant, the last the new user message; the prior ones are exactly the user/assistant entries of the last ten, in their original order, each once; no history gives only the new message |
| ChatRoute.OlderHistoryIgnored | src/app/api/chat/route.ts:93 | entries older than the last ten never reach the model |
| ChatRoute.ShortHistoryKept | src/app/api/chat/route.ts:93-101 | a conversational history of at most ten entries is passed whole, in order |
| ChatRoute.WindowBeforeFilter | src/app/api/chat/route.ts:93-101 | windowing precedes filtering: 11 turns plus one system entry leave 9 prior turns |
| ChatRoute.ContextInfo | src/app/api/chat/route.ts:74-87 | personalisation is empty iff the results lookup failed or found none, else starts with the header |
| ChatRoute.ResultLines | src/app/api/chat/route.ts:78-86 | empty exactly for no results; otherwise starts with the first result's title-and-percentage line |
| ChatRoute.ContextUsesNewestThree | src/app/api/chat/route.ts:62-72 | only the three newest results shape the context |
| ChatRoute.ErrorResponse | src/app/api/chat/route.ts:127-148 | status 429 iff the error carries 429, 401 iff it carries 401, otherwise 500 with the error's message or a generic text |
| ChatRoute.ReadReply | src/app/api/chat/route.ts:117-126 | tokens = input + output tokens; text of the first block, "" when it is not text; an error when there is no block |
| ChatRoute.ModelRequest | src/app/api/chat/route.ts:89-115 | the fixed model id and 2048-token cap; the system text is the preamble followed by the results context, so it is extended exactly when recent results exist; the messages are the windowed history followed by the new user message |
| ChatRoute.Answer | src/app/api/chat/route.ts:61-126 | after the checks: results lookup (limit 3) then one model call with the windowed input; reply iff the provider replied with content, and then the response is exactly what the reply reader makes of it; a thrown provider error is mapped as the error table says |
| ChatRoute.Post | src/app/api/chat/route.ts:29-59 | 400 with no lookups for a falsy message or conversation id; 401 after only the user lookup; 403 after the user and conversation lookups when not the owner; otherwise the model call |
| ChatRoute.CheckOrder | src/app/api/chat/route.ts:33-59 | a 401 (not from the provider) implies valid fields; a 403 implies valid fields and a signed-in non-owner |
| ChatRoute.ReplyOnlyAfterChecks | src/app/api/chat/route.ts:104-126 | a reply comes only after all lookups and the model call, with the summed token count |
| ChatRoute.PostStatuses | src/app/api/chat/route.ts:29-149 | every response is a reply or one of 400, 401, 403, 429, 500 |
| ChatInterface.Displayed | src/components/chat/chat-interface.tsx:136 | the transcript shown holds no system message, every non-system message, and has length total minus system count |
| ChatInterface.DisplayedSnoc | src/components/chat/chat-interface.tsx:136 | appending a message grows the display by it exactly when it is not a system message |
| ChatInterface.HistoryFor | src/components/chat/chat-interface.tsx:83 | the history sent is exactly the pre-submit transcript without system messages, serialised in order; all entries conversational |
| ChatInterface.FirstTurn | src/components/chat/chat-interface.tsx:114 | a turn is the first exactly when the pre-submit transcript holds no user message |
| ChatInterface.TitleFrom | src/components/chat/chat-interface.tsx:115 | the title is a prefix of the message of length min(50, length) |
| ChatInterface.Submit | src/components/chat/chat-interface.tsx:48-56 | blank-after-trim input or a pending reply changes nothing; otherwise the turn is the exchange for the trimmed text on the pre-submit transcript, the box is cleared and loading ends |
| ChatInterface.Exchange | src/components/chat/chat-interface.tsx:57-126 | the user message is stored first; a failed store appends nothing and reports; otherwise the endpoint gets the pre-submit history; a failed call reports right after it; a returned reply is stored third, followed only by a failure report when that store failed or by the title on a successful first turn, and by nothing else |
| ChatInterface.TranscriptGrowth | src/components/chat/chat-interface.tsx:69-111 | success appends user then assistant; an endpoint or reply-store failure appends only the user message; a user-store failure appends nothing |
| ChatInterface.TitleAndFailureRule | src/components/chat/chat-interface.tsx:113-126 | a failure is reported iff a step failed; a title is set iff the whole turn succeeded on a transcript with no user message, as the last effect |
| ChatInterface.TitleOnlyOnFirstTurn | src/components/chat/chat-interface.tsx:113-120 | a successful first turn sets the title; no later turn does |
| ChatInterface.FailedFirstTurnKeepsTitle | src/components/chat/chat-interface.tsx:72-120 | after a first turn whose reply failed, no retry sets the title |
| ChatInterface.ModelSeesDisplayedWindow | src/components/chat/chat-interface.tsx:80-84 | end to end, the model sees the last ten displayed pre-submit messages then the new message |
| QuestionCard.ClickSelection | src/components/assessments/question-card.tsx:30-55 | after a single-choice click exactly the clicked option shows selected; after a multiple-choice click the clicked option flips and every other keeps its state; a free-text card reports nothing |
| QuestionCard.Without | src/components/assessments/question-card.tsx:37 | removes every copy of the id, keeps every other element, strictly shorter when the id was present |
| QuestionCard.WithoutConcat | src/components/assessments/question-card.tsx:37 | removal distributes over concatenation, so the others keep their order |
| QuestionCard.Toggle | src/components/assessments/question-card.tsx:34-41 | membership of the clicked id flips, every other id's membership is unchanged; an absent id is appended at the end |
| QuestionCard.ToggleOffSplits | src/components/assessments/question-card.tsx:36-37 | unselecting removes the id from each part of the selection, keeping order |
| QuestionCard.ToggleTwiceRestores | src/components/assessments/question-card.tsx:36-40 | clicking an unselected option twice restores the selection exactly |
| QuestionCard.ToggleKeepsDistinct | src/components/assessments/question-card.tsx:36-40 | a duplicate-free selection stays duplicate-free |
| QuestionCard.OptionClick | src/components/assessments/question-card.tsx:30-42 | single choice yields exactly [id]; multiple choice toggles; free text reports nothing |
| QuestionCard.OptionClickByName | src/components/assessments/question-card.tsx:31-34 | only the kind names "single" and "multiple" produce an answer |
| TaskCard.CategoryIcon | src/components/tasks/task-card.tsx:39-49 | the default pin icon exactly for categories outside the nine known ones |
| TaskCard.DifficultyLabel | src/components/tasks/task-card.tsx:27-31 | a label exists exactly for difficulties 1, 2, 3 |
| TaskCard.TypeLabel | src/components/tasks/task-card.tsx:33-37 | a label exists exactly for daily, weekly, custom |
| TaskCard.ShownTags | src/components/tasks/task-card.tsx:115-117 | nothing for null or empty tags, else the first one or two tags |
| TaskCard.View | src/components/tasks/task-card.tsx:80-137 | renders iff type and difficulty have labels; the add action is offered iff the task is not added |
| TaskCard.NewAssignment | src/components/tasks/task-card.tsx:60-67 | new assignment is pending, dated with the timestamp prefix before the first "T" |
| TaskCard.AssignedDateOfIso | src/components/tasks/task-card.tsx:60 | for an ISO timestamp the date is its first ten characters |
| TaskCard.AddTask | src/components/tasks/task-card.tsx:56-78 | no action for an added task; otherwise the insert, followed by a refresh when it was stored and by a failure report when it was not |
| UserTaskCard.UpdateFor | src/components/tasks/user-task-card.tsx:55-61 | completing stamps the time, starting clears it, pending and skipped leave it |
| UserTaskCard.Apply | src/components/tasks/user-task-card.tsx:55-66 | the stored row takes the new status and stamp change; an un-completed row keeps its stale stamp |
| UserTaskCard.UpdateStatus | src/components/tasks/user-task-card.tsx:51-93 | the row update comes first; a failed update changes nothing and reports; a stored one is exactly the row write, the points increment when a signed-in user completes a not-yet-completed task, and a refresh; +10 points iff stored, new status completed, old status not "completed", user signed in and increment stored |
| UserTaskCard.OfferedTransition | src/components/tasks/user-task-card.tsx:123-153 | a completed card offers only pending, any other card only completed |
| UserTaskCard.OfferedTransitionFlips | src/components/tasks/user-task-card.tsx:123-153 | taking the offered change flips completion; un-completing earns nothing |
| UserTaskCard.PointsNeverDecrease | src/components/tasks/user-task-card.tsx:71-83 | over any sequence of clicks the point total never drops |
| UserTaskCard.RecompletionPaysTwice | src/components/tasks/user-task-card.tsx:55-83 | complete, un-complete, complete pays 20 in total and the un-completed row keeps the first stamp |
| UserTaskCard.StatusLabel | src/components/tasks/user-task-card.tsx:27-32 | a label exists exactly for the four known statuses |
| UserTaskCard.View | src/components/tasks/user-task-card.tsx:95-109 | renders iff the status is known, with the category icon and the offered transition |
| PracticeLogCard.MoodIndex | src/components/practice/practice-log-card.tsx:47 | floor((m-1)/2): 2r <= m-1 < 2r+2 |
| PracticeLogCard.MoodIndexMonotone | src/components/practice/practice-log-card.tsx:43-47 | for moods 1 to 10 the index lies in [0,4] and is non-decreasing |
| PracticeLogCard.MoodEmoji | src/components/practice/practice-log-card.tsx:43-48 | null or 0 gives the neutral face; 1 to 10 the table entry; other moods no entry |
| PracticeLogCard.MoodBadge | src/components/practice/practice-log-card.tsx:71-73 | nothing for a null mood; the number "0" for a zero mood (a falsy number is printed); the emoji for 1 to 10; an empty badge for other moods |
| PracticeLogCard.CategoryIcon | src/components/practice/practice-log-card.tsx:50-52 | the pin icon iff the category is null, empty or outside the six iconed ones |
| PracticeLogCard.BiasLabel | src/components/practice/practice-log-card.tsx:106 | an unknown bias key is shown as itself; a known one by a different name |
| ConversationList.ElapsedDays | src/components/chat/conversation-list.tsx:29-30 | floor division by 86 400 000 ms |
| ConversationList.Bucket | src/components/chat/conversation-list.tsx:32-43 | exactly one bucket per day count: 0 today, 1 yesterday, other counts below 7 (negatives too) days-ago, 7 and more calendar |
| ConversationList.LabelText | src/components/chat/conversation-list.tsx:32-43 | today, yesterday, the decimal day count followed by " 天前", or the calendar text |
| ConversationList.FormatDate | src/components/chat/conversation-list.tsx:26-44 | day 0 reads today, day 1 yesterday, every other count below 7 (negatives too) "{days} 天前", a week or more the calendar date |
| ConversationList.DaysAgoReadsBack | src/components/chat/conversation-list.tsx:37 | the "days ago" text carries the day count as digits before the suffix |
| ConversationList.ContextIcon | src/components/chat/conversation-list.tsx:46-55 | chart for assessment analysis, memo for practice reflection, speech bubble otherwise or when absent |
| ConversationList.View | src/components/chat/conversation-list.tsx:16-24 | the empty state iff there are no conversations; otherwise one item per conversation, in order |
| ConversationList.ItemsFor | src/components/chat/conversation-list.tsx:57-82 | one item per conversation, in order |
| AuthContext.ProfileName | src/contexts/auth-context.tsx:54 | a non-empty username verbatim; otherwise an "@"-free prefix of the email ending at its first "@" |
| AuthContext.DefaultNameIsLocalPart | src/contexts/auth-context.tsx:54 | the default for local@domain is the local part; an email without "@" is used whole |
| AuthContext.SignUp | src/contexts/auth-context.tsx:47-73 | the account call comes first; an auth error is thrown with no profile insert; a profile is inserted iff a user comes back, with username = display name = metadata username; a profile error is logged, not thrown; a registration makes exactly the account call, at most one insert and at most one log entry |

## Left out

- Store, authentication and language-model calls: modelled only as oracle outcomes. Their behaviour is external.
- React state, effects, scrolling, textarea sizing, routing, markup, CSS colour classes, `alert` and `console` text: UI plumbing. A failure report is one `ReportFailure` effect.
- The instruction preamble text of the chat endpoint: a parameter (`persona`), because it is prose, not logic. Model id, token cap, window size and result limit are the source's constants.
- JSON shapes outside the modelled body: a truthy non-string `message` passes the 400 check; a `null` body throws while being destructured; a truthy non-array `history`, or a `null` entry in it, throws while being windowed or filtered. Each of the throwing cases ends in a 500. The model's body has string fields and a list of role/content entries, so it does not represent these inputs.
- A result whose assessment join is `null`: the context line then reads `- undefined: …` (route.ts:82). The model takes the title as a string and does not represent the missing join.
- An `updated_at` that does not parse: the day count is NaN, every comparison fails and the calendar branch renders "Invalid Date" (conversation-list.tsx:27-43). The model takes the elapsed milliseconds as an integer.
- The rounded percentage and the JSON of dimension scores in the context line: floating point and serialisation. They arrive as pre-rendered strings.
- ChatRoute.ErrorResponse: the texts of the engine's own errors (a body that is not JSON, a reply with no content block) are placeholders. Only their status 500 is faithful.
- ChatInterface.TitleFrom: `substring(0, 50)` counts UTF-16 code units. The model counts Unicode scalar values, so astral characters such as emoji count once, not twice.
- Message ids, `created_at` and the assistant message's model/token metadata: the stored rows are abstracted to role and content.
- `toLocaleDateString` / `toLocaleTimeString` and `Date.now`: the elapsed milliseconds and the calendar text are inputs.
- Non-integer and NaN mood scores: the model takes integer moods.
- Lookups of inherited object keys such as "constructor" in the icon and label tables: JavaScript would return a prototype member. The model treats them as unknown keys.
- The tag list's `join(", ")`: rendering.
- Concurrency (two tabs, double submits while a request is in flight): the code has no coordination. The loading flag is modelled as a state bit.
- Quiz attempt resume, answer upsert and scoring: not part of this model, because their logic is not in the modelled files.
- `add-task-button.tsx`: it builds the same insert record as `TaskCard.NewAssignment`.

=== FILE: auth_context.dfy ===
/** Sign-up: the username put into the account metadata and the profile
    row, and the order of the account call, the profile insert and the
    error handling. The authentication service and the store are oracles. */
module AuthContext {
  import opened Wrappers
  import opened Strings

  /** `username || email.split("@")[0]`: a non-empty username as given,
      else the part of the email before its first "@". */
  function ProfileName(email: string, username: Option<string>): (r: string)
    ensures username.Some? && username.value != "" ==> r == username.value
    ensures !(username.Some? && username.value != "") ==>
      && '@' !in r
      && |r| <= |email| && r == email[..|r|]
      && (|r| < |email| ==> email[|r|] == '@')
  {
    if username.Some? && username.value != "" then username.value else BeforeFirst(email, '@')
  }

  /** For an address `local@domain` the default name is the local part;
      an email without "@" is used whole. */
  lemma DefaultNameIsLocalPart(local: string, domain: string)
    requires '@' !in local
    ensures ProfileName(local + "@" + domain, None) == local
    ensures ProfileName(local, None) == local
  {
    var email := local + "@" + domain;
    assert email[..|local|] == local;
    BeforeFirstUnique(email, '@', local);
    BeforeFirstNoSep(local, '@');
  }

  datatype Profile = Profile(id: string, username: string, displayName: string)

  /** What the authentication service answers. */
  datatype AuthOutcome = AuthError(message: string) | Registered(user: Option<string>)

  datatype Effect =
    | RequestSignUp(email: string, password: string, metadataUsername: string, redirectTo: string)
    | InsertProfile(profile: Profile)
    | LogProfileError

  /** The call's end: it throws the service's error, or returns. */
  datatype Ending = Threw(message: string) | Returned

  datatype SignUpRun = SignUpRun(effects: seq<Effect>, ending: Ending)

  /** `signUp`: register with the service; on an error throw it before
      touching the store; when a user comes back, insert its profile,
      logging (not throwing) an insert error. */
  function SignUp(email: string, password: string, username: Option<string>, origin: string,
                  auth: AuthOutcome, profileOk: bool): (r: SignUpRun)
    ensures |r.effects| >= 1
    ensures r.effects[0] == RequestSignUp(email, password, ProfileName(email, username), origin + "/auth/callback")
    ensures r.ending.Threw? <==> auth.AuthError?
    ensures auth.AuthError? ==> |r.effects| == 1 && r.ending == Threw(auth.message)
    ensures (exists i :: 0 <= i < |r.effects| && r.effects[i].InsertProfile?) <==> auth.Registered? && auth.user.Some?
    ensures forall i :: 0 <= i < |r.effects| && r.effects[i].InsertProfile? ==>
      r.effects[i].profile == Profile(auth.user.value, r.effects[0].metadataUsername, r.effects[0].metadataUsername)
    ensures LogProfileError in r.effects <==> auth.Registered? && auth.user.Some? && !profileOk
    ensures auth.Registered? ==>
      r.effects == [r.effects[0]]
                   + (if auth.user.Some?
                      then [InsertProfile(Profile(auth.user.value, ProfileName(email, username), ProfileName(email, username)))]
                      else [])
                   + (if auth.user.Some? && !profileOk then [LogProfileError] else [])
  {
    var name := ProfileName(email, username);
    var request := RequestSignUp(email, password, name, origin + "/auth/callback");
    match auth
    case AuthError(message) => SignUpRun([request], Threw(message))
    case Registered(None) => SignUpRun([request], Returned)
    case Registered(Some(id)) =>
      var insert := InsertProfile(Profile(id, name, name));
      var effects := if profileOk then [request, insert] else [request, insert, LogProfileError];
      assert effects[1].InsertProfile?;
      SignUpRun(effects, Returned)
  }
}

=== FILE: chat_interface.dfy ===
/** The chat panel's turn bookkeeping: the submit guard, the order in which
    the user's message and the reply are stored and appended, the history
    sent to the chat endpoint, the first-turn title rule and the displayed
    transcript. Store writes and the endpoint call are oracles. */
module ChatInterface {
  import opened Wrappers
  import opened Seqs
  import opened Strings
  import opened Types
  import ChatRoute

  datatype Message = Message(role: Role, content: string)

  /** The panel's state: the local transcript, the text box and the loading flag. */
  datatype Panel = Panel(messages: seq<Message>, input: string, loading: bool)

  /** The endpoint's successful answer. */
  datatype ApiReply = ApiReply(message: string, model: string, tokens: int)

  /** Outcomes of the external calls of one submit: the user-message insert,
      the endpoint call (None when it fails or answers with a non-2xx status)
      and the assistant-message insert. */
  datatype Backend = Backend(userSaved: bool, reply: Option<ApiReply>, replySaved: bool)

  datatype Effect =
    | InsertMessage(role: Role, content: string)
    | PostChat(conversationId: string, message: string, history: seq<ChatRoute.WireMessage>)
    | SetTitle(conversationId: string, title: string)
    | ReportFailure

  datatype Submitted = Submitted(panel: Panel, effects: seq<Effect>)

  /** Longest title taken from the first user message. */
  const TitleLength: nat := 50

  predicate NotSystem(m: Message) {
    m.role != System
  }

  predicate IsUser(m: Message) {
    m.role == User
  }

  /** The transcript shown: every message except system ones, in order. */
  function Displayed(messages: seq<Message>): (r: seq<Message>)
    ensures forall i :: 0 <= i < |r| ==> r[i].role != System
    ensures forall i :: 0 <= i < |messages| && messages[i].role != System ==> messages[i] in r
    ensures |r| == |messages| - Count((m: Message) => m.role == System, messages)
  {
    FilterLength(NotSystem, messages);
    CountComplement(messages);
    Filter(NotSystem, messages)
  }

  lemma {:induction false} CountComplement(messages: seq<Message>)
    ensures Count(NotSystem, messages) == |messages| - Count((m: Message) => m.role == System, messages)
  {
    if |messages| > 0 {
      CountComplement(messages[1..]);
    }
  }

  /** Appending a message extends the display by it exactly when it is not a system message. */
  lemma DisplayedSnoc(messages: seq<Message>, m: Message)
    ensures Displayed(messages + [m]) == Displayed(messages) + (if m.role != System then [m] else [])
  {
    FilterSnoc(NotSystem, messages, m);
  }

  /** A message as serialised into the request body. */
  function ToWire(m: Message): ChatRoute.WireMessage {
    ChatRoute.WireMessage(RoleName(m.role), m.content)
  }

  function ToWireAll(ms: seq<Message>): (r: seq<ChatRoute.WireMessage>)
    ensures |r| == |ms|
    ensures forall i :: 0 <= i < |ms| ==> r[i] == ToWire(ms[i])
  {
    if |ms| == 0 then [] else [ToWire(ms[0])] + ToWireAll(ms[1..])
  }

  /** The history sent with a turn: the transcript as it stood before the
      submit, without system messages. */
  function HistoryFor(before: seq<Message>): (r: seq<ChatRoute.WireMessage>)
    ensures |r| <= |before|
    ensures forall i :: 0 <= i < |r| ==> ChatRoute.IsConversational(r[i])
    ensures r == ToWireAll(Displayed(before))
  {
    ToWireAll(Filter(NotSystem, before))
  }

  /** True when the transcript holds no user message yet. */
  predicate FirstTurn(before: seq<Message>): (b: bool)
    ensures b <==> forall i :: 0 <= i < |before| ==> before[i].role != User
  {
    UserFilterEmpty(before);
    |Filter(IsUser, before)| == 0
  }

  lemma UserFilterEmpty(before: seq<Message>)
    ensures |Filter(IsUser, before)| == 0 <==> forall i :: 0 <= i < |before| ==> before[i].role != User
  {
    var r := Filter(IsUser, before);
    if |r| > 0 {
      assert r[0] in before;
      var i :| 0 <= i < |before| && before[i] == r[0];
      assert before[i].role == User;
    }
  }

  /** The title given to a conversation by its first user message. */
  function TitleFrom(message: string): (t: string)
    ensures |t| <= TitleLength && |t| <= |message|
    ensures |t| == if |message| < TitleLength then |message| else TitleLength
    ensures t == message[..|t|]
    ensures |message| <= TitleLength ==> t == message
  {
    Take(message, TitleLength)
  }

  /** The turn proper, after the guard: store the user's text, append it,
      call the endpoint with the prior history, store and append the reply,
      and on the first user turn name the conversation. The first failure
      ends the sequence with an error report. */
  function Exchange(conversationId: string, before: seq<Message>, text: string, backend: Backend): (r: Submitted)
    ensures !r.panel.loading && r.panel.input == []
    ensures |r.effects| >= 2 && r.effects[0] == InsertMessage(User, text)
    ensures !backend.userSaved ==>
      r == Submitted(Panel(before, [], false), [InsertMessage(User, text), ReportFailure])
    ensures backend.userSaved ==>
      r.effects[1] == PostChat(conversationId, text, HistoryFor(before))
      && |r.panel.messages| >= |before| + 1 && r.panel.messages[..|before| + 1] == before + [Message(User, text)]
    ensures backend.userSaved && backend.reply.None? ==>
      r.effects == [InsertMessage(User, text), PostChat(conversationId, text, HistoryFor(before)), ReportFailure]
    ensures backend.userSaved && backend.reply.Some? ==>
      r.effects == [InsertMessage(User, text), PostChat(conversationId, text, HistoryFor(before)),
                    InsertMessage(Assistant, backend.reply.value.message)]
                   + (if !backend.replySaved then [ReportFailure]
                      else if FirstTurn(before) then [SetTitle(conversationId, TitleFrom(text))]
                      else [])
  {
    var userMsg := Message(User, text);
    var saveUser := InsertMessage(User, text);
    if !backend.userSaved then
      Submitted(Panel(before, [], false), [saveUser, ReportFailure])
    else
      var post := PostChat(conversationId, text, HistoryFor(before));
      var withUser := before + [userMsg];
      if backend.reply.None? then
        Submitted(Panel(withUser, [], false), [saveUser, post, ReportFailure])
      else
        var reply := backend.reply.value;
        var saveReply := InsertMessage(Assistant, reply.message);
        if !backend.replySaved then
          Submitted(Panel(withUser, [], false), [saveUser, post, saveReply, ReportFailure])
        else
          var all := withUser + [Message(Assistant, reply.message)];
          assert all[..|before| + 1] == withUser;
          var done := Panel(all, [], false);
          if FirstTurn(before) then
            Submitted(done, [saveUser, post, saveReply, SetTitle(conversationId, TitleFrom(text))])
          else
            Submitted(done, [saveUser, post, saveReply])
  }

  /** One press of send. Blank input and presses while a reply is pending
      change nothing; otherwise the trimmed text is what is stored and sent. */
  function Submit(conversationId: string, p: Panel, backend: Backend): (r: Submitted)
    ensures Trim(p.input) == [] || p.loading ==> r == Submitted(p, [])
    ensures Trim(p.input) != [] && !p.loading ==> r == Exchange(conversationId, p.messages, Trim(p.input), backend)
  {
    var text := Trim(p.input);
    if text == [] || p.loading then Submitted(p, [])
    else Exchange(conversationId, p.messages, text, backend)
  }

  /** The transcript after a turn: unchanged when the user message could
      not be stored, one user message more when the reply failed, and a
      user message followed by the assistant's reply on success. */
  lemma TranscriptGrowth(conversationId: string, before: seq<Message>, text: string, backend: Backend)
    ensures var ms := Exchange(conversationId, before, text, backend).panel.messages;
      && (!backend.userSaved ==> ms == before)
      && (backend.userSaved && !(backend.reply.Some? && backend.replySaved) ==>
            ms == before + [Message(User, text)])
      && (backend.userSaved && backend.reply.Some? && backend.replySaved ==>
            ms == before + [Message(User, text), Message(Assistant, backend.reply.value.message)])
  {
  }

  /** A failure is reported exactly when some step failed, and only a
      fully successful first turn sets the title, as its last effect. */
  lemma TitleAndFailureRule(conversationId: string, before: seq<Message>, text: string, backend: Backend)
    ensures var r := Exchange(conversationId, before, text, backend);
      && (ReportFailure in r.effects <==> !(backend.userSaved && backend.reply.Some? && backend.replySaved))
      && (forall i :: 0 <= i < |r.effects| && r.effects[i].SetTitle? ==>
            i == |r.effects| - 1 && r.effects[i] == SetTitle(conversationId, TitleFrom(text)))
      && ((exists i :: 0 <= i < |r.effects| && r.effects[i].SetTitle?) <==>
            backend.userSaved && backend.reply.Some? && backend.replySaved && FirstTurn(before))
  {
    var r := Exchange(conversationId, before, text, backend);
    if backend.userSaved && backend.reply.Some? && backend.replySaved && FirstTurn(before) {
      assert r.effects[3].SetTitle?;
    }
  }

  /** The title is given on a successful first turn and on no later turn. */
  lemma TitleOnlyOnFirstTurn(conversationId: string, before: seq<Message>, text: string, backend: Backend,
                             text2: string, backend2: Backend)
    requires backend.userSaved && backend.reply.Some? && backend.replySaved
    requires FirstTurn(before)
    ensures Exchange(conversationId, before, text, backend).effects[3] == SetTitle(conversationId, TitleFrom(text))
    ensures var after := Exchange(conversationId, before, text, backend).panel.messages;
            forall i :: 0 <= i < |Exchange(conversationId, after, text2, backend2).effects| ==>
              !Exchange(conversationId, after, text2, backend2).effects[i].SetTitle?
  {
    TranscriptGrowth(conversationId, before, text, backend);
    var after := Exchange(conversationId, before, text, backend).panel.messages;
    assert after[|before|] == Message(User, text);
    assert Message(User, text) in Filter(IsUser, after);
    TitleAndFailureRule(conversationId, after, text2, backend2);
  }

  /** A first turn whose reply fails still leaves the user message in the
      transcript, so a retry no longer counts as the first turn and the
      conversation keeps its placeholder title. */
  lemma FailedFirstTurnKeepsTitle(conversationId: string, before: seq<Message>, text: string, backend: Backend,
                                  text2: string, backend2: Backend)
    requires backend.userSaved && backend.reply.None?
    ensures var after := Exchange(conversationId, before, text, backend).panel.messages;
            forall i :: 0 <= i < |Exchange(conversationId, after, text2, backend2).effects| ==>
              !Exchange(conversationId, after, text2, backend2).effects[i].SetTitle?
  {
    TranscriptGrowth(conversationId, before, text, backend);
    var after := Exchange(conversationId, before, text, backend).panel.messages;
    assert after[|before|] == Message(User, text);
    assert Message(User, text) in Filter(IsUser, after);
    TitleAndFailureRule(conversationId, after, text2, backend2);
  }

  /** End to end: the model sees the last ten displayed messages from
      before the submit, then the new message. The history the panel sends
      holds no system messages, so the endpoint's role filter removes
      nothing and the window alone decides. */
  lemma ModelSeesDisplayedWindow(before: seq<Message>, message: string)
    ensures ChatRoute.ModelInput(Some(HistoryFor(before)), message)
         == TakeLast(ToWireAll(Displayed(before)), ChatRoute.HistoryWindow)
            + [ChatRoute.WireMessage("user", message)]
  {
    var w := TakeLast(HistoryFor(before), ChatRoute.HistoryWindow);
    assert forall i :: 0 <= i < |w| ==> ChatRoute.IsConversational(w[i]);
    FilterKeepsAll(ChatRoute.IsConversational, w);
  }
}

=== FILE: chat_route.dfy ===
/** The chat endpoint (`POST /api/chat`): request validation, the sign-in
    and ownership checks, assembly of the language-model request from a
    sliding window of the prior turns, and the mapping of provider errors
    to HTTP statuses. The backing store and the language-model provider are
    oracles: their answers are parameters of the handler. */
module ChatRoute {
  import opened Wrappers
  import opened Seqs

  /** A role-tagged message as it travels in JSON; the role is whatever
      string the client sent. */
  datatype WireMessage = WireMessage(role: string, content: string)

  /** The JSON body; a field is None when it is absent or null. */
  datatype ChatBody = ChatBody(
    conversationId: Option<string>,
    message: Option<string>,
    history: Option<seq<WireMessage>>)

  /** How many of the most recent history entries are considered. */
  const HistoryWindow: nat := 10
  /** How many recent quiz results are fetched for personalisation. */
  const ResultLimit: nat := 3
  const ModelId: string := "claude-3-5-sonnet-20241022"
  const MaxTokens: nat := 2048
  const ContextHeader: string := "\n\n用户的最近测试结果：\n"

  /** One recent quiz result as the context line shows it; the rounded
      percentage and the JSON of the dimension scores arrive pre-rendered. */
  datatype RecentResult = RecentResult(title: string, percentage: string, dimensions: Option<string>)

  /** The store's answers to the handler's three lookups. `results` is the
      user's results newest first, None when the query failed. */
  datatype Store = Store(
    user: Option<string>,
    conversationOwner: Option<string>,
    results: Option<seq<RecentResult>>)

  datatype ContentBlock = TextBlock(text: string) | OtherBlock

  datatype ProviderRequest = ProviderRequest(
    model: string, maxTokens: nat, system: string, messages: seq<WireMessage>)

  datatype ProviderReply = ProviderReply(
    content: seq<ContentBlock>, model: string, inputTokens: nat, outputTokens: nat)

  /** What the provider call does: reply, or raise an error that may carry an HTTP status. */
  datatype ProviderOutcome = Replied(reply: ProviderReply) | Raised(error: Thrown)

  /** An exception reaching the handler's catch block. */
  datatype Thrown = Thrown(status: Option<int>, message: string)

  /** The external calls the handler makes, in order. */
  datatype Step =
    | GetUser
    | LoadConversation(id: string)
    | LoadRecentResults(userId: string, limit: nat)
    | CallModel(request: ProviderRequest)

  datatype Response =
    | Reply(message: string, model: string, tokens: int)
    | Failure(status: int, error: string)

  datatype Handled = Handled(response: Response, trace: seq<Step>)

  /** JavaScript truthiness of an optional string field. */
  predicate Truthy(s: Option<string>) {
    s.Some? && s.value != ""
  }

  predicate IsConversational(m: WireMessage) {
    m.role == "user" || m.role == "assistant"
  }

  /** The message list sent to the model: the last ten history entries,
      those with role user or assistant kept in order, then the new message. */
  function ModelInput(history: Option<seq<WireMessage>>, message: string): (r: seq<WireMessage>)
    ensures 1 <= |r| <= HistoryWindow + 1
    ensures r[|r| - 1] == WireMessage("user", message)
    ensures forall i :: 0 <= i < |r| ==> IsConversational(r[i])
    ensures history.None? ==> r == [WireMessage("user", message)]
    ensures history.Some? ==>
      r[..|r| - 1] == Filter(IsConversational, TakeLast(history.value, HistoryWindow))
    ensures history.Some? ==>
      forall i :: 0 <= i < |r| - 1 ==> r[i] in TakeLast(history.value, HistoryWindow)
    ensures history.Some? ==>
      var w := TakeLast(history.value, HistoryWindow);
      forall i :: 0 <= i < |w| && IsConversational(w[i]) ==> w[i] in r[..|r| - 1]
  {
    var recent := if history.Some? then TakeLast(history.value, HistoryWindow) else [];
    var prior := Filter(IsConversational, recent);
    assert (prior + [WireMessage("user", message)])[..|prior|] == prior;
    prior + [WireMessage("user", message)]
  }

  /** Entries older than the last ten never reach the model. */
  lemma OlderHistoryIgnored(older: seq<WireMessage>, recent: seq<WireMessage>, message: string)
    requires |recent| >= HistoryWindow
    ensures ModelInput(Some(older + recent), message) == ModelInput(Some(recent), message)
  {
    var h := older + recent;
    assert h[|h| - HistoryWindow..] == recent[|recent| - HistoryWindow..];
  }

  /** A short, purely conversational history is passed on whole. */
  lemma ShortHistoryKept(history: seq<WireMessage>, message: string)
    requires |history| <= HistoryWindow
    requires forall i :: 0 <= i < |history| ==> IsConversational(history[i])
    ensures ModelInput(Some(history), message) == history + [WireMessage("user", message)]
  {
    FilterKeepsAll(IsConversational, history);
  }

  /** Windowing happens before filtering: eleven conversational turns
      followed by one system entry leave only nine prior turns. */
  lemma WindowBeforeFilter(message: string)
    ensures var turn := WireMessage("user", "hi");
            var h := seq(11, _ => turn) + [WireMessage("system", "note")];
            |ModelInput(Some(h), message)| == 10
  {
    var turn := WireMessage("user", "hi");
    var h := seq(11, _ => turn) + [WireMessage("system", "note")];
    var w := TakeLast(h, HistoryWindow);
    assert w == seq(9, _ => turn) + [WireMessage("system", "note")];
    FilterConcat(IsConversational, seq(9, _ => turn), [WireMessage("system", "note")]);
    FilterKeepsAll(IsConversational, seq(9, _ => turn));
    assert Filter(IsConversational, [WireMessage("system", "note")]) == [];
  }

  /** Lines describing the recent results. */
  function ResultLines(results: seq<RecentResult>): (r: string)
    ensures |results| == 0 <==> r == ""
    ensures |results| > 0 ==>
      var head := "- " + results[0].title + ": " + results[0].percentage + "分\n";
      |head| <= |r| && r[..|head|] == head
  {
    if |results| == 0 then ""
    else
      var r := results[0];
      var line := "- " + r.title + ": " + r.percentage + "分\n";
      var dims := if r.dimensions.Some? then "  维度: " + r.dimensions.value + "\n" else "";
      line + dims + ResultLines(results[1..])
  }

  /** The personalisation appended to the instruction preamble: empty when
      the lookup failed or found nothing, else a header and one entry per
      result, of which there are at most three. */
  function ContextInfo(results: Option<seq<RecentResult>>): (r: string)
    ensures r == "" <==> results.None? || |results.value| == 0
    ensures r != "" ==> |ContextHeader| <= |r| && r[..|ContextHeader|] == ContextHeader
  {
    if results.None? || |results.value| == 0 then ""
    else
      var fetched := Take(results.value, ResultLimit);
      assert Take(fetched, ResultLimit) == fetched;
      ContextHeader + ResultLines(fetched)
  }

  /** Only the three newest results can shape the context. */
  lemma ContextUsesNewestThree(results: seq<RecentResult>)
    ensures ContextInfo(Some(results)) == ContextInfo(Some(Take(results, ResultLimit)))
  {
    if |results| > 0 {
      assert Take(Take(results, ResultLimit), ResultLimit) == Take(results, ResultLimit);
    }
  }

  /** The catch block: provider rate limiting and authentication failures
      pass through as 429 and 401; everything else is a 500 carrying the
      error's message, or a generic text when it has none. */
  function ErrorResponse(e: Thrown): (r: Response)
    ensures r.Failure?
    ensures r.status == 429 <==> e.status == Some(429)
    ensures r.status == 401 <==> e.status == Some(401)
    ensures r.status == 500 <==> e.status != Some(429) && e.status != Some(401)
    ensures r.status == 500 ==> r.error != ""
    ensures r.status == 500 && e.message != "" ==> r.error == e.message
  {
    if e.status == Some(429) then Failure(429, "API rate limit exceeded")
    else if e.status == Some(401) then Failure(401, "Invalid API key")
    else Failure(500, if e.message != "" then e.message else "Internal server error")
  }

  /** Placeholder texts for the runtime errors the engine raises when the
      body is not JSON or the reply has no content block. */
  const MalformedBody: Thrown := Thrown(None, "malformed JSON body")
  const MissingContent: Thrown := Thrown(None, "reply has no content block")

  /** Reply text and token count of a provider reply, or the error reading
      its first content block raises. */
  function ReadReply(reply: ProviderReply): (r: Response)
    ensures |reply.content| == 0 ==> r == ErrorResponse(MissingContent)
    ensures |reply.content| > 0 ==> r.Reply? && r.model == reply.model
    ensures r.Reply? ==> r.tokens == reply.inputTokens + reply.outputTokens
    ensures r.Reply? && reply.content[0].TextBlock? ==> r.message == reply.content[0].text
    ensures r.Reply? && !reply.content[0].TextBlock? ==> r.message == ""
  {
    if |reply.content| == 0 then ErrorResponse(MissingContent)
    else
      var text := match reply.content[0]
        case TextBlock(t) => t
        case OtherBlock => "";
      Reply(text, reply.model, reply.inputTokens + reply.outputTokens)
  }

  /** The request sent to the provider for a valid, authorised call. */
  function ModelRequest(b: ChatBody, store: Store, persona: string): (r: ProviderRequest)
    requires Truthy(b.message)
    ensures r.model == ModelId && r.maxTokens == MaxTokens
    ensures |persona| <= |r.system| && r.system[..|persona|] == persona
    ensures r.system == persona <==> store.results.None? || |store.results.value| == 0
    ensures |r.messages| >= 1 && r.messages[|r.messages| - 1] == WireMessage("user", b.message.value)
    ensures r.system == persona + ContextInfo(store.results)
    ensures r.messages == ModelInput(b.history, b.message.value)
  {
    assert (persona + ContextInfo(store.results))[..|persona|] == persona;
    ProviderRequest(ModelId, MaxTokens, persona + ContextInfo(store.results),
                    ModelInput(b.history, b.message.value))
  }

  /** The part of the handler after the checks: fetch the recent results,
      call the model, read its reply. */
  function Answer(b: ChatBody, uid: string, store: Store, persona: string, provider: ProviderOutcome): (r: Handled)
    requires Truthy(b.message) && Truthy(b.conversationId)
    ensures r.trace == [GetUser, LoadConversation(b.conversationId.value),
                        LoadRecentResults(uid, ResultLimit), CallModel(ModelRequest(b, store, persona))]
    ensures r.response.Reply? <==> provider.Replied? && |provider.reply.content| > 0
    ensures provider.Raised? ==> r.response == ErrorResponse(provider.error)
    ensures provider.Replied? ==> r.response == ReadReply(provider.reply)
  {
    var trace := [GetUser, LoadConversation(b.conversationId.value),
                  LoadRecentResults(uid, ResultLimit), CallModel(ModelRequest(b, store, persona))];
    match provider
    case Raised(e) => Handled(ErrorResponse(e), trace)
    case Replied(reply) => Handled(ReadReply(reply), trace)
  }

  /** The whole handler. `persona` is the fixed instruction preamble. */
  function Post(body: Option<ChatBody>, store: Store, persona: string, provider: ProviderOutcome): (r: Handled)
    // a body that is not JSON is an internal error before any lookup
    ensures body.None? ==> r == Handled(ErrorResponse(MalformedBody), [])
    // 1. validation: 400 before any lookup
    ensures body.Some? && !(Truthy(body.value.message) && Truthy(body.value.conversationId)) ==>
      r == Handled(Failure(400, "Missing required fields"), [])
    // 2. authentication: 401 after looking up the user alone
    ensures body.Some? && Truthy(body.value.message) && Truthy(body.value.conversationId) && store.user.None? ==>
      r == Handled(Failure(401, "Unauthorized"), [GetUser])
    // 3. ownership: 403 for a signed-in user who does not own the conversation
    ensures body.Some? && Truthy(body.value.message) && Truthy(body.value.conversationId)
            && store.user.Some? && store.conversationOwner != Some(store.user.value) ==>
      r == Handled(Failure(403, "Forbidden"), [GetUser, LoadConversation(body.value.conversationId.value)])
    // 4. otherwise the model is called
    ensures body.Some? && Truthy(body.value.message) && Truthy(body.value.conversationId)
            && store.user.Some? && store.conversationOwner == Some(store.user.value) ==>
      r == Answer(body.value, store.user.value, store, persona, provider)
  {
    if body.None? then Handled(ErrorResponse(MalformedBody), [])
    else
      var b := body.value;
      if !(Truthy(b.message) && Truthy(b.conversationId)) then
        Handled(Failure(400, "Missing required fields"), [])
      else if store.user.None? then
        Handled(Failure(401, "Unauthorized"), [GetUser])
      else if store.conversationOwner != Some(store.user.value) then
        Handled(Failure(403, "Forbidden"), [GetUser, LoadConversation(b.conversationId.value)])
      else
        Answer(b, store.user.value, store, persona, provider)
  }

  /** The checks run in order: a 401 implies the body was valid, a 403
      implies the body was valid and a user was signed in. */
  lemma CheckOrder(body: Option<ChatBody>, store: Store, persona: string, provider: ProviderOutcome)
    requires provider.Replied? || provider.error.status != Some(401)
    ensures var r := Post(body, store, persona, provider);
            (r.response.Failure? && r.response.status == 401 ==>
               body.Some? && Truthy(body.value.message) && Truthy(body.value.conversationId) && store.user.None?)
            && (r.response.Failure? && r.response.status == 403 ==>
               body.Some? && Truthy(body.value.message) && Truthy(body.value.conversationId)
               && store.user.Some? && store.conversationOwner != Some(store.user.value))
  {
  }

  /** A reply is only ever produced after all three lookups and the model call. */
  lemma ReplyOnlyAfterChecks(body: Option<ChatBody>, store: Store, persona: string, provider: ProviderOutcome)
    ensures var r := Post(body, store, persona, provider);
            r.response.Reply? ==>
              body.Some? && store.user.Some? && store.conversationOwner == store.user
              && |r.trace| == 4 && r.trace[3] == CallModel(ModelRequest(body.value, store, persona))
              && provider.Replied?
              && r.response.tokens == provider.reply.inputTokens + provider.reply.outputTokens
  {
  }

  /** Every response is a reply or one of the statuses 400, 401, 403, 429, 500. */
  lemma PostStatuses(body: Option<ChatBody>, store: Store, persona: string, provider: ProviderOutcome)
    ensures var resp := Post(body, store, persona, provider).response;
            resp.Reply? || resp.status in {400, 401, 403, 429, 500}
  {
  }
}

=== FILE: conversation_list.dfy ===
/** The conversation sidebar: day bucketing of the last-update time, the
    context icon, and the empty-list case. Clock readings and the calendar
    date text are inputs. */
module ConversationList {
  import opened Wrappers
  import opened Strings

  /** Milliseconds in a day. */
  const DayMs: int := 1000 * 60 * 60 * 24

  /** `Math.floor(diff / DayMs)`: whole days elapsed, rounding towards
      minus infinity for a timestamp in the future. */
  function ElapsedDays(diffMs: int): (d: int)
    ensures d * DayMs <= diffMs < (d + 1) * DayMs
  {
    diffMs / DayMs
  }

  datatype DateLabel = Today | Yesterday | DaysAgo(days: int) | CalendarDate

  /** The bucket for a day count, checked in order: 0, 1, below 7, the rest.
      Negative counts fall in the "days ago" bucket. */
  function Bucket(days: int): (r: DateLabel)
    ensures r == Today <==> days == 0
    ensures r == Yesterday <==> days == 1
    ensures r.DaysAgo? <==> days < 7 && days != 0 && days != 1
    ensures r.DaysAgo? ==> r.days == days
    ensures r == CalendarDate <==> days >= 7
  {
    if days == 0 then Today
    else if days == 1 then Yesterday
    else if days < 7 then DaysAgo(days)
    else CalendarDate
  }

  const DaysAgoSuffix: string := " 天前"

  /** The text of a bucket; `calendar` is the locale's short month-day date. */
  function LabelText(bucket: DateLabel, calendar: string): (r: string)
    ensures bucket == Today ==> r == "今天"
    ensures bucket == Yesterday ==> r == "昨天"
    ensures bucket.DaysAgo? ==>
      |r| > |DaysAgoSuffix| && r[|r| - |DaysAgoSuffix|..] == DaysAgoSuffix
      && r[..|r| - |DaysAgoSuffix|] == IntToDecimal(bucket.days)
    ensures bucket == CalendarDate ==> r == calendar
  {
    match bucket
    case Today => "今天"
    case Yesterday => "昨天"
    case DaysAgo(n) => IntToDecimal(n) + DaysAgoSuffix
    case CalendarDate => calendar
  }

  /** The date line of a conversation updated `diffMs` milliseconds ago. */
  function FormatDate(diffMs: int, calendar: string): (r: string)
    ensures 0 <= diffMs < DayMs ==> r == "今天"
    ensures DayMs <= diffMs < 2 * DayMs ==> r == "昨天"
    ensures diffMs >= 7 * DayMs ==> r == calendar
    ensures var d := ElapsedDays(diffMs);
            d < 7 && d != 0 && d != 1 ==> r == IntToDecimal(d) + DaysAgoSuffix
    ensures diffMs < 0 ==> |r| > |DaysAgoSuffix| && r[0] == '-'
  {
    LabelText(Bucket(ElapsedDays(diffMs)), calendar)
  }

  /** The "days ago" text reads back as its day count. */
  lemma DaysAgoReadsBack(n: nat)
    requires 2 <= n < 7
    ensures var t := LabelText(DaysAgo(n), "");
            |t| > |DaysAgoSuffix| && t[|t| - |DaysAgoSuffix|..] == DaysAgoSuffix
            && DecimalValue(t[..|t| - |DaysAgoSuffix|]) == n
  {
    var digits := NatToDecimal(n);
    var t := digits + DaysAgoSuffix;
    assert t[..|t| - |DaysAgoSuffix|] == digits;
    assert t[|t| - |DaysAgoSuffix|..] == DaysAgoSuffix;
    DecimalRoundTrip(n);
  }

  /** Icon for a conversation's context kind; anything else, or none, gets the speech bubble. */
  function ContextIcon(contextType: Option<string>): (r: string)
    ensures contextType == Some("assessment_analysis") ==> r == "📊"
    ensures contextType == Some("practice_reflection") ==> r == "📝"
    ensures contextType != Some("assessment_analysis") && contextType != Some("practice_reflection") ==> r == "💬"
  {
    match contextType
    case Some("assessment_analysis") => "📊"
    case Some("practice_reflection") => "📝"
    case _ => "💬"
  }

  /** A conversation as listed; the age and the calendar text come from the clock. */
  datatype Conversation = Conversation(
    id: string, title: string, ageMs: int, calendar: string, contextType: Option<string>)

  datatype Item = Item(href: string, icon: string, title: string, date: string)

  datatype ListView = EmptyState | Items(items: seq<Item>)

  function ItemFor(c: Conversation): Item {
    Item("/chat/" + c.id, ContextIcon(c.contextType), c.title, FormatDate(c.ageMs, c.calendar))
  }

  function ItemsFor(cs: seq<Conversation>): (r: seq<Item>)
    ensures |r| == |cs|
    ensures forall i :: 0 <= i < |cs| ==> r[i] == ItemFor(cs[i])
  {
    if |cs| == 0 then [] else [ItemFor(cs[0])] + ItemsFor(cs[1..])
  }

  /** The list: the empty state and no items for no conversations,
      otherwise one item per conversation in the given order. */
  function View(cs: seq<Conversation>): (r: ListView)
    ensures r.EmptyState? <==> |cs| == 0
    ensures r.Items? ==> |r.items| == |cs|
    ensures r.Items? ==> forall i :: 0 <= i < |cs| ==>
      r.items[i].title == cs[i].title && r.items[i].icon == ContextIcon(cs[i].contextType)
  {
    if |cs| == 0 then EmptyState else Items(ItemsFor(cs))
  }
}

=== FILE: practice_log_card.dfy ===
/** The practice-log card's display rules: the mood emoji, the category
    icon and the bias labels, each with its fallback. */
module PracticeLogCard {
  import opened Wrappers

  /** Emojis for moods 1-2, 3-4, 5-6, 7-8 and 9-10. */
  const MoodEmojis: seq<string> := ["😢", "😟", "😐", "🙂", "😊"]
  const NeutralMood: string := "😐"

  /** `Math.floor((mood - 1) / 2)` for an integer mood. */
  function MoodIndex(mood: int): (r: int)
    ensures 2 * r <= mood - 1 < 2 * r + 2
  {
    (mood - 1) / 2
  }

  /** Over the scale 1 to 10 the index stays inside the emoji table and
      never decreases as the mood rises. */
  lemma MoodIndexMonotone(a: int, b: int)
    requires 1 <= a <= b <= 10
    ensures 0 <= MoodIndex(a) <= MoodIndex(b) <= |MoodEmojis| - 1
  {
  }

  /** The emoji chosen for a mood, None where the table has no entry
      (a non-zero mood outside 1 to 10). A null or zero mood is neutral. */
  function MoodEmoji(mood: Option<int>): (r: Option<string>)
    ensures mood.None? || mood == Some(0) ==> r == Some(NeutralMood)
    ensures mood.Some? && 1 <= mood.value <= 10 ==>
      r.Some? && 0 <= MoodIndex(mood.value) < |MoodEmojis| && r.value == MoodEmojis[MoodIndex(mood.value)]
    ensures mood.Some? && mood.value != 0 && !(1 <= mood.value <= 10) ==> r.None?
  {
    if mood.None? || mood.value == 0 then Some(NeutralMood)
    else
      var i := MoodIndex(mood.value);
      if 0 <= i < |MoodEmojis| then Some(MoodEmojis[i]) else None
  }

  /** What `{mood && <badge/>}` renders: nothing for a null mood; the
      number itself for a zero mood, since a falsy number is printed;
      otherwise the emoji badge, empty where the table has no entry. */
  function MoodBadge(mood: Option<int>): (r: Option<string>)
    ensures r.None? <==> mood.None?
    ensures mood == Some(0) ==> r == Some("0")
    ensures mood.Some? && 1 <= mood.value <= 10 ==> r == MoodEmoji(mood) && r.value != ""
    ensures mood.Some? && mood.value != 0 && !(1 <= mood.value <= 10) ==> r == Some("")
  {
    if mood.None? then None
    else if mood.value == 0 then Some("0")
    else Some(ValueOr(MoodEmoji(mood), ""))
  }

  const DefaultIcon: string := "📌"

  /** The categories with an icon other than the default one ("other" has the default). */
  const IconCategories: seq<string> := ["work", "life", "relationship", "finance", "health", "learning"]

  /** Icon of a log's category: the default for a null or empty category
      and for one without an entry. */
  function CategoryIcon(category: Option<string>): (r: string)
    ensures r == DefaultIcon <==> category.None? || category.value !in IconCategories
  {
    if category.None? || category.value == "" then DefaultIcon
    else
      match category.value
      case "work" => "💼"
      case "life" => "🏠"
      case "relationship" => "👥"
      case "finance" => "💰"
      case "health" => "🏥"
      case "learning" => "📚"
      case "other" => "📌"
      case _ => DefaultIcon
  }

  /** The bias keys that have a display name. */
  const BiasKeys: seq<string> := ["confirmation", "availability", "anchoring", "sunk_cost",
    "overconfidence", "negativity", "halo_effect", "groupthink", "dunning_kruger", "framing"]

  /** Display name of a bias key; an unknown key is shown as itself. */
  function BiasLabel(key: string): (r: string)
    ensures key !in BiasKeys ==> r == key
    ensures key in BiasKeys ==> r != key && r != ""
  {
    match key
    case "confirmation" => "确认偏差"
    case "availability" => "可得性偏差"
    case "anchoring" => "锚定效应"
    case "sunk_cost" => "沉没成本"
    case "overconfidence" => "过度自信"
    case "negativity" => "消极偏差"
    case "halo_effect" => "光环效应"
    case "groupthink" => "群体思维"
    case "dunning_kruger" => "达克效应"
    case "framing" => "框架效应"
    case _ => key
  }
}

=== FILE: question_card.dfy ===
/** Answer selection on a quiz question card: a click on a single-choice
    option replaces the selection, a click on a multiple-choice option
    toggles it, and other kinds of question ignore clicks. */
module QuestionCard {
  import opened Wrappers
  import opened Types
  import opened Seqs

  /** An option is shown selected when its id is in the selection. */
  predicate IsSelected(selected: seq<string>, optionId: string) {
    optionId in selected
  }

  /** The test `id => id !== optionId`. */
  function Other(optionId: string): (string -> bool) {
    id => id != optionId
  }

  /** `selected.filter(id => id !== optionId)`. */
  function Without(selected: seq<string>, optionId: string): (r: seq<string>)
    ensures optionId !in r
    ensures |r| <= |selected|
    ensures optionId in selected ==> |r| < |selected|
    ensures forall i :: 0 <= i < |r| ==> r[i] in selected
    ensures forall i :: 0 <= i < |selected| && selected[i] != optionId ==> selected[i] in r
  {
    var r := Filter(Other(optionId), selected);
    assert forall i :: 0 <= i < |r| ==> r[i] != optionId by {
      forall i | 0 <= i < |r| ensures r[i] != optionId {
        assert Other(optionId)(r[i]);
      }
    }
    assert optionId in selected ==> exists i :: 0 <= i < |selected| && !Other(optionId)(selected[i]);
    r
  }

  /** Removal distributes over concatenation, so the kept ids stay in order. */
  lemma WithoutConcat(a: seq<string>, b: seq<string>, optionId: string)
    ensures Without(a + b, optionId) == Without(a, optionId) + Without(b, optionId)
  {
    FilterConcat(Other(optionId), a, b);
  }

  /** Removing an absent id changes nothing. */
  lemma WithoutAbsent(selected: seq<string>, optionId: string)
    requires optionId !in selected
    ensures Without(selected, optionId) == selected
  {
    FilterKeepsAll(Other(optionId), selected);
  }

  /** A multiple-choice click: remove every copy of a selected id, or
      append an unselected one at the end. */
  function Toggle(selected: seq<string>, optionId: string): (r: seq<string>)
    ensures IsSelected(r, optionId) <==> !IsSelected(selected, optionId)
    ensures forall x :: x != optionId ==> (IsSelected(r, x) <==> IsSelected(selected, x))
    ensures !IsSelected(selected, optionId) ==> r == selected + [optionId]
    ensures IsSelected(selected, optionId) ==> |r| < |selected|
  {
    if optionId in selected then
      var kept := Without(selected, optionId);
      assert forall x :: x != optionId && x in selected ==> x in kept by {
        forall x | x != optionId && x in selected ensures x in kept {
          var i :| 0 <= i < |selected| && selected[i] == x;
        }
      }
      kept
    else selected + [optionId]
  }

  /** Unselecting keeps the other ids in order: removing the id from a
      selection split anywhere removes it from each part. */
  lemma ToggleOffSplits(a: seq<string>, b: seq<string>, optionId: string)
    requires optionId in a + b
    ensures Toggle(a + b, optionId) == Without(a, optionId) + Without(b, optionId)
  {
    WithoutConcat(a, b, optionId);
  }

  /** What the card reports for a click, or None when it reports nothing. */
  function OptionClick(kind: QuestionKind, selected: seq<string>, optionId: string): (r: Option<seq<string>>)
    ensures kind == Single ==> r == Some([optionId])
    ensures kind == Multiple ==> r.Some? && r.value == Toggle(selected, optionId)
    ensures kind == FreeText ==> r.None?
  {
    match kind
    case Single => Some([optionId])
    case Multiple => Some(Toggle(selected, optionId))
    case FreeText => None
  }

  /** The card's kind field is a string; only "single" and "multiple" react. */
  function OptionClickByName(kindName: string, selected: seq<string>, optionId: string): (r: Option<seq<string>>)
    ensures r.Some? <==> kindName == "single" || kindName == "multiple"
    ensures kindName == "single" ==> r == Some([optionId])
    ensures kindName == "multiple" ==> r == Some(Toggle(selected, optionId))
  {
    match ParseKind(kindName)
    case Some(k) => OptionClick(k, selected, optionId)
    case None => None
  }

  /** What a click shows selected afterwards: on a single-choice card only
      the clicked option; on a multiple-choice card the clicked option flips
      and every other keeps its state; a free-text card reports nothing. */
  lemma ClickSelection(kind: QuestionKind, selected: seq<string>, optionId: string)
    ensures kind == Single ==>
      forall x :: IsSelected(OptionClick(kind, selected, optionId).value, x) <==> x == optionId
    ensures kind == Multiple ==>
      && (IsSelected(OptionClick(kind, selected, optionId).value, optionId) <==> !IsSelected(selected, optionId))
      && forall x :: x != optionId ==>
           (IsSelected(OptionClick(kind, selected, optionId).value, x) <==> IsSelected(selected, x))
    ensures kind == FreeText ==> OptionClick(kind, selected, optionId).None?
  {
  }

  /** Clicking an unselected option twice restores the original selection. */
  lemma ToggleTwiceRestores(selected: seq<string>, optionId: string)
    requires !IsSelected(selected, optionId)
    ensures Toggle(Toggle(selected, optionId), optionId) == selected
  {
    WithoutConcat(selected, [optionId], optionId);
    WithoutAbsent(selected, optionId);
    assert Without([optionId], optionId) == [];
  }

  /** Toggling never introduces a duplicate into a duplicate-free selection. */
  lemma ToggleKeepsDistinct(selected: seq<string>, optionId: string)
    requires Distinct(selected)
    ensures Distinct(Toggle(selected, optionId))
  {
    if optionId in selected {
      FilterDistinct(Other(optionId), selected);
    }
  }
}

=== FILE: seqs.dfy ===
/** Sequence helpers shared by the chat, selection and task models:
    `Array.prototype.filter`, `slice(-n)` and `slice(0, n)`. */
module Seqs {

  /** `s.filter(p)`: the elements of `s` satisfying `p`, in their original order. */
  function Filter<T>(p: T -> bool, s: seq<T>): (r: seq<T>)
    ensures |r| <= |s|
    ensures forall i :: 0 <= i < |r| ==> p(r[i])
    ensures forall i :: 0 <= i < |r| ==> r[i] in s
    ensures forall i :: 0 <= i < |s| && p(s[i]) ==> s[i] in r
    ensures (exists i :: 0 <= i < |s| && !p(s[i])) ==> |r| < |s|
  {
    if |s| == 0 then []
    else if p(s[0]) then [s[0]] + Filter(p, s[1..])
    else Filter(p, s[1..])
  }

  /** Filtering distributes over concatenation, so order is preserved block by block. */
  lemma {:induction false} FilterConcat<T>(p: T -> bool, a: seq<T>, b: seq<T>)
    ensures Filter(p, a + b) == Filter(p, a) + Filter(p, b)
  {
    if |a| == 0 {
      assert a + b == b;
    } else {
      assert (a + b)[1..] == a[1..] + b;
      FilterConcat(p, a[1..], b);
    }
  }

  /** Filtering one more element at the end appends it exactly when it passes. */
  lemma FilterSnoc<T>(p: T -> bool, s: seq<T>, x: T)
    ensures Filter(p, s + [x]) == Filter(p, s) + (if p(x) then [x] else [])
  {
    FilterConcat(p, s, [x]);
    assert Filter(p, [x]) == (if p(x) then [x] else []) by {
      assert [x][1..] == [];
    }
  }

  /** A sequence whose every element passes is left unchanged. */
  lemma {:induction false} FilterKeepsAll<T>(p: T -> bool, s: seq<T>)
    requires forall i :: 0 <= i < |s| ==> p(s[i])
    ensures Filter(p, s) == s
  {
    if |s| > 0 {
      FilterKeepsAll(p, s[1..]);
    }
  }

  /** No element occurs twice. */
  predicate Distinct<T(==)>(s: seq<T>) {
    forall i, j :: 0 <= i < j < |s| ==> s[i] != s[j]
  }

  /** Filtering never introduces a duplicate. */
  lemma {:induction false} FilterDistinct<T>(p: T -> bool, s: seq<T>)
    requires Distinct(s)
    ensures Distinct(Filter(p, s))
  {
    if |s| > 0 {
      FilterDistinct(p, s[1..]);
      var rest := Filter(p, s[1..]);
      assert s[0] !in s[1..];
      assert s[0] !in rest;
      if p(s[0]) {
        var r := [s[0]] + rest;
        assert Filter(p, s) == r;
        forall i, j | 0 <= i < j < |r| ensures r[i] != r[j] {
          if i == 0 {
            assert r[j] == rest[j - 1];
          } else {
            assert r[i] == rest[i - 1] && r[j] == rest[j - 1];
          }
        }
      }
    }
  }

  /** Number of elements of `s` satisfying `p`. */
  function Count<T>(p: T -> bool, s: seq<T>): nat {
    if |s| == 0 then 0 else (if p(s[0]) then 1 else 0) + Count(p, s[1..])
  }

  /** The filtered sequence has exactly as many elements as pass the test. */
  lemma {:induction false} FilterLength<T>(p: T -> bool, s: seq<T>)
    ensures |Filter(p, s)| == Count(p, s)
  {
    if |s| > 0 {
      FilterLength(p, s[1..]);
    }
  }

  /** `s.slice(-n)`: the last `min(n, |s|)` elements (`slice(-0)` differs, hence n > 0). */
  function TakeLast<T>(s: seq<T>, n: nat): (r: seq<T>)
    requires n > 0
    ensures |r| == if |s| < n then |s| else n
    ensures s == s[..|s| - |r|] + r
  {
    if |s| <= n then s else s[|s| - n..]
  }

  /** `s.slice(0, n)`: the first `min(n, |s|)` elements. */
  function Take<T>(s: seq<T>, n: nat): (r: seq<T>)
    ensures |r| == if |s| < n then |s| else n
    ensures s == r + s[|r|..]
  {
    if |s| <= n then s else s[..n]
  }
}

=== FILE: strings.dfy ===
/** String helpers with JavaScript's meaning: `trim()`, `split(sep)[0]` and
    the decimal rendering of an integer in a template literal. Strings are
    sequences of Unicode scalar values. */
module Strings {

  /** The characters `String.prototype.trim` removes: ECMAScript WhiteSpace
      and LineTerminator code points. */
  predicate IsSpace(c: char) {
    || c == '\t' || c == '\n' || c == '\U{B}' || c == '\U{C}' || c == '\r'
    || c == ' ' || c == '\U{A0}' || c == '\U{1680}'
    || ('\U{2000}' <= c <= '\U{200A}')
    || c == '\U{2028}' || c == '\U{2029}' || c == '\U{202F}' || c == '\U{205F}'
    || c == '\U{3000}' || c == '\U{FEFF}'
  }

  predicate AllSpace(s: string) {
    forall i :: 0 <= i < |s| ==> IsSpace(s[i])
  }

  /** `s` with its leading white space removed. */
  function TrimStart(s: string): (r: string)
    ensures |r| <= |s| && r == s[|s| - |r|..]
    ensures AllSpace(s[..|s| - |r|])
    ensures |r| > 0 ==> !IsSpace(r[0])
  {
    if |s| > 0 && IsSpace(s[0]) then TrimStart(s[1..]) else s
  }

  /** `s` with its trailing white space removed. */
  function TrimEnd(s: string): (r: string)
    ensures |r| <= |s| && r == s[..|r|]
    ensures AllSpace(s[|r|..])
    ensures |r| > 0 ==> !IsSpace(r[|r| - 1])
  {
    if |s| > 0 && IsSpace(s[|s| - 1]) then TrimEnd(s[..|s| - 1]) else s
  }

  /** `s.trim()`. */
  function Trim(s: string): (r: string)
    ensures |r| <= |s|
    ensures |r| > 0 ==> !IsSpace(r[0]) && !IsSpace(r[|r| - 1])
    ensures r == [] <==> AllSpace(s)
  {
    var t := TrimStart(s);
    assert s == s[..|s| - |t|] + t;
    TrimEnd(t)
  }

  lemma {:induction false} TrimStartSkips(a: string, t: string)
    requires AllSpace(a)
    requires |t| > 0 ==> !IsSpace(t[0])
    ensures TrimStart(a + t) == t
  {
    if |a| > 0 {
      assert (a + t)[1..] == a[1..] + t;
      TrimStartSkips(a[1..], t);
    } else {
      assert a + t == t;
    }
  }

  lemma {:induction false} TrimEndSkips(t: string, b: string)
    requires AllSpace(b)
    requires |t| > 0 ==> !IsSpace(t[|t| - 1])
    ensures TrimEnd(t + b) == t
  {
    if |b| > 0 {
      assert (t + b)[..|t + b| - 1] == t + b[..|b| - 1];
      TrimEndSkips(t, b[..|b| - 1]);
    } else {
      assert t + b == t;
    }
  }

  /** Trim is characterised independently of its definition: whenever `s`
      is white space, then a core that neither starts nor ends with white
      space, then white space, the trimmed string is that core. */
  lemma TrimUnique(a: string, m: string, b: string)
    requires AllSpace(a) && AllSpace(b)
    requires |m| > 0 ==> !IsSpace(m[0]) && !IsSpace(m[|m| - 1])
    ensures Trim(a + m + b) == m
  {
    if |m| > 0 {
      assert a + m + b == a + (m + b);
      TrimStartSkips(a, m + b);
      TrimEndSkips(m, b);
    } else {
      assert a + m + b == a + b;
      assert AllSpace(a + b) by {
        forall i | 0 <= i < |a + b| ensures IsSpace((a + b)[i]) {
          if i < |a| { assert (a + b)[i] == a[i]; } else { assert (a + b)[i] == b[i - |a|]; }
        }
      }
    }
  }

  /** Trimming twice is trimming once. */
  lemma TrimIdempotent(s: string)
    ensures Trim(Trim(s)) == Trim(s)
  {
    var m := Trim(s);
    assert m == [] + m + [];
    TrimUnique([], m, []);
  }

  /** `s.split(sep)[0]`: the part of `s` before the first `sep`, or all of
      `s` when it holds no `sep`. */
  function BeforeFirst(s: string, sep: char): (r: string)
    ensures |r| <= |s| && r == s[..|r|]
    ensures sep !in r
    ensures |r| < |s| ==> s[|r|] == sep
  {
    if |s| == 0 || s[0] == sep then [] else [s[0]] + BeforeFirst(s[1..], sep)
  }

  /** The three properties of `BeforeFirst` pin its result down: any prefix
      of `s` free of `sep` that ends at `sep` or at the end of `s` is it. */
  lemma {:induction false} BeforeFirstUnique(s: string, sep: char, p: string)
    requires |p| <= |s| && p == s[..|p|]
    requires sep !in p
    requires |p| < |s| ==> s[|p|] == sep
    ensures BeforeFirst(s, sep) == p
  {
    if |s| > 0 && s[0] != sep {
      assert |p| > 0;
      assert p[0] == s[0];
      BeforeFirstUnique(s[1..], sep, p[1..]);
    }
  }

  /** When `sep` is absent the whole string is kept. */
  lemma BeforeFirstNoSep(s: string, sep: char)
    requires sep !in s
    ensures BeforeFirst(s, sep) == s
  {
    BeforeFirstUnique(s, sep, s);
  }

  predicate IsDigit(c: char) {
    '0' <= c <= '9'
  }

  function DigitChar(d: nat): (c: char)
    requires d < 10
    ensures IsDigit(c) && c as int - '0' as int == d
  {
    (d + '0' as int) as char
  }

  /** The base-ten rendering of `n`, as `${n}` produces it. */
  function NatToDecimal(n: nat): (r: string)
    ensures |r| >= 1
    ensures forall i :: 0 <= i < |r| ==> IsDigit(r[i])
    ensures r[0] == '0' ==> n == 0
  {
    if n < 10 then [DigitChar(n)] else NatToDecimal(n / 10) + [DigitChar(n % 10)]
  }

  /** The value of a string of decimal digits. */
  function DecimalValue(s: string): nat
    requires forall i :: 0 <= i < |s| ==> IsDigit(s[i])
  {
    if |s| == 0 then 0
    else
      assert IsDigit(s[|s| - 1]);
      DecimalValue(s[..|s| - 1]) * 10 + (s[|s| - 1] as int - '0' as int) as nat
  }

  /** Reading back a rendered number gives the number. */
  lemma {:induction false} DecimalRoundTrip(n: nat)
    ensures DecimalValue(NatToDecimal(n)) == n
  {
    if n >= 10 {
      var r := NatToDecimal(n);
      assert r[..|r| - 1] == NatToDecimal(n / 10);
      DecimalRoundTrip(n / 10);
    }
  }

  /** `${n}` for an integer: a minus sign before the digits of |n| when negative. */
  function IntToDecimal(n: int): (r: string)
    ensures |r| >= 1
    ensures n < 0 <==> r[0] == '-'
    ensures n < 0 ==> r[1..] == NatToDecimal(-n)
    ensures n >= 0 ==> r == NatToDecimal(n)
  {
    if n < 0 then "-" + NatToDecimal(-n) else NatToDecimal(n)
  }
}

=== FILE: task_card.dfy ===
/** The task catalogue card: category, type and difficulty lookups, the
    shortened tag list, and the record created when a user adds a task. */
module TaskCard {
  import opened Wrappers
  import opened Strings
  import opened Types

  /** Icon shown for a category with no entry of its own. */
  const DefaultIcon: string := "📌"

  /** The task categories that have an icon of their own. */
  const Categories: seq<string> := ["thinking", "emotion", "reflection", "challenge",
    "decision", "learning", "social", "mindfulness", "information"]

  /** Icon of a task category, shared by the catalogue card and the user's task card. */
  function CategoryIcon(category: string): (r: string)
    ensures r == DefaultIcon <==> category !in Categories
    ensures r != ""
  {
    match category
    case "thinking" => "🧠"
    case "emotion" => "❤️"
    case "reflection" => "🤔"
    case "challenge" => "💪"
    case "decision" => "🎯"
    case "learning" => "📚"
    case "social" => "👥"
    case "mindfulness" => "🧘"
    case "information" => "📰"
    case _ => DefaultIcon
  }

  /** Label of a difficulty level; only levels 1 to 3 have one. */
  function DifficultyLabel(difficulty: int): (r: Option<string>)
    ensures r.Some? <==> 1 <= difficulty <= 3
  {
    if difficulty == 1 then Some("简单")
    else if difficulty == 2 then Some("中等")
    else if difficulty == 3 then Some("挑战")
    else None
  }

  datatype TypeInfo = TypeInfo(caption: string, icon: string)

  /** Label and icon of a task type; only daily, weekly and custom have one. */
  function TypeLabel(kind: string): (r: Option<TypeInfo>)
    ensures r.Some? <==> kind in ["daily", "weekly", "custom"]
  {
    match kind
    case "daily" => Some(TypeInfo("每日", "📅"))
    case "weekly" => Some(TypeInfo("每周", "📆"))
    case "custom" => Some(TypeInfo("自定义", "⚙️"))
    case _ => None
  }

  /** How many tags the card shows. */
  const ShownTagCount: nat := 2

  /** The tags shown: the first two, and nothing at all when the list is
      null or empty. */
  function ShownTags(tags: Option<seq<string>>): (r: Option<seq<string>>)
    ensures r.None? <==> tags.None? || |tags.value| == 0
    ensures r.Some? ==> 1 <= |r.value| <= ShownTagCount
    ensures r.Some? ==> |r.value| <= |tags.value| && r.value == tags.value[..|r.value|]
    ensures r.Some? && |tags.value| >= ShownTagCount ==> |r.value| == ShownTagCount
  {
    if tags.None? || |tags.value| == 0 then None
    else if |tags.value| <= ShownTagCount then tags
    else Some(tags.value[..ShownTagCount])
  }

  datatype Task = Task(id: string, kind: string, category: string, difficulty: int, tags: Option<seq<string>>)

  /** What the card renders. */
  datatype CardView = CardView(
    icon: string, typeInfo: TypeInfo, difficulty: string, tags: Option<seq<string>>, addOffered: bool)

  /** The card, or None when it cannot render because the task's type or
      difficulty has no label (reading a field of the missing entry throws). */
  function View(task: Task, isAdded: bool): (r: Option<CardView>)
    ensures r.Some? <==> TypeLabel(task.kind).Some? && DifficultyLabel(task.difficulty).Some?
    ensures r.Some? ==> r.value.addOffered == !isAdded
    ensures r.Some? ==> r.value.icon == CategoryIcon(task.category) && r.value.tags == ShownTags(task.tags)
  {
    match (TypeLabel(task.kind), DifficultyLabel(task.difficulty))
    case (Some(t), Some(d)) => Some(CardView(CategoryIcon(task.category), t, d, ShownTags(task.tags), !isAdded))
    case _ => None
  }

  /** The row inserted when a user adds a task. */
  datatype UserTaskRow = UserTaskRow(userId: string, taskId: string, assignedDate: string, status: string)

  /** A new assignment starts pending, dated by the part of the ISO
      timestamp before its first "T". */
  function NewAssignment(userId: string, taskId: string, isoNow: string): (r: UserTaskRow)
    ensures r.status == StatusName(Pending)
    ensures r.userId == userId && r.taskId == taskId
    ensures |r.assignedDate| <= |isoNow| && r.assignedDate == isoNow[..|r.assignedDate|]
    ensures 'T' !in r.assignedDate
    ensures |r.assignedDate| < |isoNow| ==> isoNow[|r.assignedDate|] == 'T'
  {
    UserTaskRow(userId, taskId, BeforeFirst(isoNow, 'T'), StatusName(Pending))
  }

  /** For a well-formed ISO timestamp the assigned date is its first ten
      characters, the calendar date. */
  lemma AssignedDateOfIso(userId: string, taskId: string, isoNow: string)
    requires |isoNow| > 10 && isoNow[10] == 'T' && 'T' !in isoNow[..10]
    ensures NewAssignment(userId, taskId, isoNow).assignedDate == isoNow[..10]
  {
    BeforeFirstUnique(isoNow, 'T', isoNow[..10]);
  }

  datatype Effect = InsertUserTask(row: UserTaskRow) | Refresh | ReportFailure

  /** The add button: offered only for a task not yet added; it inserts the
      new row, then refreshes on success or reports the failure. */
  function AddTask(isAdded: bool, userId: string, taskId: string, isoNow: string, insertOk: bool): (r: seq<Effect>)
    ensures isAdded ==> r == []
    ensures !isAdded ==> |r| == 2 && r[0] == InsertUserTask(NewAssignment(userId, taskId, isoNow))
    ensures !isAdded ==> r[1] == (if insertOk then Refresh else ReportFailure)
  {
    if isAdded then []
    else [InsertUserTask(NewAssignment(userId, taskId, isoNow)), if insertOk then Refresh else ReportFailure]
  }
}

=== FILE: types.dfy ===
/** The enumerations the application stores as strings: chat roles,
    question kinds and user-task statuses, each with its stored name and
    the parser that reads that name back. */
module Types {
  import opened Wrappers

  /** Role of a chat message. */
  datatype Role = User | Assistant | System

  function RoleName(r: Role): string {
    match r
    case User => "user"
    case Assistant => "assistant"
    case System => "system"
  }

  /** Reads a stored role name; any other string is not a role. */
  function ParseRole(s: string): (r: Option<Role>)
    ensures r.Some? ==> RoleName(r.value) == s
    ensures forall role: Role :: s == RoleName(role) ==> r == Some(role)
  {
    if s == "user" then Some(User)
    else if s == "assistant" then Some(Assistant)
    else if s == "system" then Some(System)
    else None
  }

  /** Kind of a quiz question. */
  datatype QuestionKind = Single | Multiple | FreeText

  function KindName(k: QuestionKind): string {
    match k
    case Single => "single"
    case Multiple => "multiple"
    case FreeText => "text"
  }

  /** Reads a stored question kind; any other string is not a kind. */
  function ParseKind(s: string): (r: Option<QuestionKind>)
    ensures r.Some? ==> KindName(r.value) == s
    ensures forall k: QuestionKind :: s == KindName(k) ==> r == Some(k)
  {
    if s == "single" then Some(Single)
    else if s == "multiple" then Some(Multiple)
    else if s == "text" then Some(FreeText)
    else None
  }

  /** Status of a task a user has taken on. */
  datatype TaskStatus = Pending | InProgress | Completed | Skipped

  function StatusName(t: TaskStatus): string {
    match t
    case Pending => "pending"
    case InProgress => "in_progress"
    case Completed => "completed"
    case Skipped => "skipped"
  }

  /** Reads a stored status; any other string is not a status. */
  function ParseStatus(s: string): (r: Option<TaskStatus>)
    ensures r.Some? ==> StatusName(r.value) == s
    ensures forall t: TaskStatus :: s == StatusName(t) ==> r == Some(t)
  {
    if s == "pending" then Some(Pending)
    else if s == "in_progress" then Some(InProgress)
    else if s == "completed" then Some(Completed)
    else if s == "skipped" then Some(Skipped)
    else None
  }
}

=== FILE: user_task_card.dfy ===
/** A user's own task card: the status update with its completion-time
    bookkeeping, the points award for completing a task, the one status
    change the card offers, and the status and category lookups. */
module UserTaskCard {
  import opened Wrappers
  import opened Types
  import TaskCard

  /** The stored assignment. The status column is free text; the card
      only ever writes the names of `TaskStatus` values into it. */
  datatype UserTask = UserTask(status: string, completedAt: Option<string>, category: string)

  predicate IsCompleted(t: UserTask) {
    t.status == StatusName(Completed)
  }

  /** What an update does to the completion time. */
  datatype StampChange = SetStamp(at: string) | ClearStamp | KeepStamp

  datatype Update = Update(status: TaskStatus, stamp: StampChange)

  /** The update written for a new status: completing stamps the current
      time, starting clears the stamp, any other status leaves it alone. */
  function UpdateFor(newStatus: TaskStatus, now: string): (u: Update)
    ensures u.status == newStatus
    ensures u.stamp == SetStamp(now) <==> newStatus == Completed
    ensures u.stamp.ClearStamp? <==> newStatus == InProgress
    ensures u.stamp.KeepStamp? <==> (newStatus == Pending || newStatus == Skipped)
  {
    if newStatus == Completed then Update(newStatus, SetStamp(now))
    else if newStatus == InProgress then Update(newStatus, ClearStamp)
    else
      assert newStatus == Pending || newStatus == Skipped;
      Update(newStatus, KeepStamp)
  }

  /** The row after the store applies an update. */
  function Apply(t: UserTask, u: Update): (r: UserTask)
    ensures r.status == StatusName(u.status) && r.category == t.category
    ensures u.stamp.SetStamp? ==> r.completedAt == Some(u.stamp.at)
    ensures u.stamp.ClearStamp? ==> r.completedAt.None?
    ensures u.stamp.KeepStamp? ==> r.completedAt == t.completedAt
  {
    var stamp := match u.stamp
      case SetStamp(at) => Some(at)
      case ClearStamp => None
      case KeepStamp => t.completedAt;
    UserTask(StatusName(u.status), stamp, t.category)
  }

  /** Points credited for completing a task. */
  const CompletionPoints: nat := 10

  /** Outcomes of the external calls: the row update, the signed-in user
      lookup and the points increment (whose error is not checked). */
  datatype Backend = Backend(updateOk: bool, user: Option<string>, incrementOk: bool)

  /** The card's row together with the user's point total. */
  datatype Card = Card(task: UserTask, points: nat)

  datatype Effect =
    | UpdateRow(update: Update)
    | IncrementPoints(userId: string, amount: nat)
    | Refresh
    | ReportFailure

  datatype Outcome = Outcome(card: Card, effects: seq<Effect>)

  /** True when a status change earns the completion points: the new status
      is completed, the old one was not, and the update was stored. */
  predicate Awards(c: Card, newStatus: TaskStatus, b: Backend) {
    b.updateOk && newStatus == Completed && !IsCompleted(c.task)
  }

  /** One status change from the card. */
  function UpdateStatus(c: Card, newStatus: TaskStatus, now: string, b: Backend): (r: Outcome)
    ensures r.card.points == c.points || r.card.points == c.points + CompletionPoints
    ensures r.card.points == c.points + CompletionPoints <==>
      b.updateOk && newStatus == Completed && c.task.status != "completed" && b.user.Some? && b.incrementOk
    ensures !b.updateOk ==> r == Outcome(c, [UpdateRow(UpdateFor(newStatus, now)), ReportFailure])
    ensures b.updateOk ==> r.card.task == Apply(c.task, UpdateFor(newStatus, now))
    ensures |r.effects| >= 2 && r.effects[0] == UpdateRow(UpdateFor(newStatus, now))
    ensures b.updateOk ==> ReportFailure !in r.effects && r.effects[|r.effects| - 1] == Refresh
    ensures b.updateOk ==>
      r.effects == [UpdateRow(UpdateFor(newStatus, now))]
                   + (if newStatus == Completed && c.task.status != "completed" && b.user.Some?
                      then [IncrementPoints(b.user.value, CompletionPoints)] else [])
                   + [Refresh]
    ensures (exists i :: 0 <= i < |r.effects| && r.effects[i].IncrementPoints?) <==>
      b.updateOk && newStatus == Completed && c.task.status != "completed" && b.user.Some?
    ensures forall i :: 0 <= i < |r.effects| && r.effects[i].IncrementPoints? ==>
              r.effects[i] == IncrementPoints(b.user.value, CompletionPoints)
  {
    var u := UpdateFor(newStatus, now);
    if !b.updateOk then Outcome(c, [UpdateRow(u), ReportFailure])
    else
      var task := Apply(c.task, u);
      if Awards(c, newStatus, b) && b.user.Some? then
        var points := if b.incrementOk then c.points + CompletionPoints else c.points;
        var r := Outcome(Card(task, points), [UpdateRow(u), IncrementPoints(b.user.value, CompletionPoints), Refresh]);
        assert r.effects[1].IncrementPoints?;
        r
      else
        Outcome(Card(task, c.points), [UpdateRow(u), Refresh])
  }

  /** The one status change the card offers: un-completing a completed
      task, completing any other. */
  function OfferedTransition(t: UserTask): (s: TaskStatus)
    ensures IsCompleted(t) <==> s == Pending
    ensures !IsCompleted(t) <==> s == Completed
  {
    if IsCompleted(t) then Pending else Completed
  }

  /** Taking the offered change flips completion when stored, and only
      completing can earn points. */
  lemma OfferedTransitionFlips(c: Card, now: string, b: Backend)
    requires b.updateOk
    ensures var r := UpdateStatus(c, OfferedTransition(c.task), now, b);
            && (IsCompleted(r.card.task) <==> !IsCompleted(c.task))
            && (IsCompleted(c.task) ==> r.card.points == c.points)
  {
  }

  /** A click on the card: the status chosen, the time and the backend's answers. */
  datatype Click = Click(newStatus: TaskStatus, now: string, backend: Backend)

  /** The card after a series of clicks, each applied to the row as it then stands. */
  function Replay(c: Card, clicks: seq<Click>): Card
    decreases |clicks|
  {
    if |clicks| == 0 then c
    else Replay(UpdateStatus(c, clicks[0].newStatus, clicks[0].now, clicks[0].backend).card, clicks[1..])
  }

  /** Points never go down: un-completing a task takes nothing back. */
  lemma {:induction false} PointsNeverDecrease(c: Card, clicks: seq<Click>)
    ensures Replay(c, clicks).points >= c.points
    decreases |clicks|
  {
    if |clicks| > 0 {
      var next := UpdateStatus(c, clicks[0].newStatus, clicks[0].now, clicks[0].backend).card;
      PointsNeverDecrease(next, clicks[1..]);
    }
  }

  /** Completing, un-completing and completing again earns the points
      twice, and the un-completed row keeps the stale completion time. */
  lemma RecompletionPaysTwice(c: Card, t1: string, t2: string, t3: string, user: string)
    requires !IsCompleted(c.task)
    ensures var b := Backend(true, Some(user), true);
            && Replay(c, [Click(Completed, t1, b), Click(Pending, t2, b), Click(Completed, t3, b)]).points
               == c.points + 2 * CompletionPoints
            && Replay(c, [Click(Completed, t1, b), Click(Pending, t2, b)]).task.completedAt == Some(t1)
  {
    var b := Backend(true, Some(user), true);
    var c1 := UpdateStatus(c, Completed, t1, b).card;
    var c2 := UpdateStatus(c1, Pending, t2, b).card;
    var c3 := UpdateStatus(c2, Completed, t3, b).card;
    assert Replay(c2, [Click(Completed, t3, b)]) == c3;
    assert [Click(Completed, t1, b), Click(Pending, t2, b), Click(Completed, t3, b)][1..]
        == [Click(Pending, t2, b), Click(Completed, t3, b)];
    assert [Click(Pending, t2, b), Click(Completed, t3, b)][1..] == [Click(Completed, t3, b)];
    assert [Click(Completed, t1, b), Click(Pending, t2, b)][1..] == [Click(Pending, t2, b)];
    assert Replay(c1, [Click(Pending, t2, b)]) == c2;
  }

  /** Label of a stored status; only the four known statuses have one. */
  function StatusLabel(status: string): (r: Option<string>)
    ensures r.Some? <==> ParseStatus(status).Some?
  {
    match ParseStatus(status)
    case Some(Pending) => Some("待完成")
    case Some(InProgress) => Some("进行中")
    case Some(Completed) => Some("已完成")
    case Some(Skipped) => Some("已跳过")
    case None => None
  }

  datatype CardView = CardView(icon: string, statusLabel: string, offered: TaskStatus)

  /** The card, or None when the stored status has no label (reading the
      missing entry's colour throws while rendering). */
  function View(t: UserTask): (r: Option<CardView>)
    ensures r.Some? <==> ParseStatus(t.status).Some?
    ensures r.Some? ==> r.value.icon == TaskCard.CategoryIcon(t.category)
    ensures r.Some? ==> r.value.offered == OfferedTransition(t)
  {
    match StatusLabel(t.status)
    case Some(text) => Some(CardView(TaskCard.CategoryIcon(t.category), text, OfferedTransition(t)))
    case None => None
  }
}

=== FILE: wrappers.dfy ===
/** JavaScript's `null` and `undefined` as a value that may be missing. */
module Wrappers {

  datatype Option<T> = None | Some(value: T)

  /** `o ?? fallback`: the present value, else the fallback. */
  function ValueOr<T>(o: Option<T>, fallback: T): (r: T)
    ensures o.Some? ==> r == o.value
    ensures o.None? ==> r == fallback
  {
    if o.Some? then o.value else fallback
  }
}
